=== FILE: README.md ===
# Cavalry web player: a verified model of its control shell

The player wraps an opaque animation engine compiled to WebAssembly. It opens
a scene file, steps the engine's clock once per display frame, and builds a
"Control Centre" panel with one input per attribute the scene exposes. A small
Python server serves the page and the engine files with cross-origin isolation.

This project models that shell in Dafny:

- `base.dfy`: `Option` and `Result`.
- `text.dfy`: the JavaScript and Python string built-ins the code relies on.
  These are `split`/`join` on one character, ASCII `toLowerCase`, `includes`
  and `endswith`. It also proves the split/join round trips.
- `vectors.dfy`: `vectorToArray`, which turns an engine vector into an array.
- `attributes.dfy`: splitting an attribute key into a layer id and a dotted
  attribute path, the rule that picks the input widget, and building the
  panel.
- `playback.dfy`: the player as an immutable record, covering:
  - play, stop, toggle and the per-frame tick;
  - restart, previous and next frame, and the slider;
  - resize, the colour-edit handler and scene loading;
  - an `Event` type with `Apply`/`Run`, and the invariants every event keeps.
- `server.dfy`: `translate_path`, `end_headers` and `find_available_port`.

The engine is represented only by the state the player reads and drives: the
playing flag, current frame, frame range, attribute definitions, the
`setAttribute` calls it received and the ticks it ran.
`requestAnimationFrame` is a set of pending callback tokens. The browser runs a
callback only while its token is pending, and `cancelAnimationFrame` removes
it. The tick's report (`frameChanged`, `currentFrame`) is a parameter. Whether
a scene file opens is also a parameter (`LoadScene` takes an `Option<Scene>`).
The bind attempt of the port scan is an oracle `bind: int -> BindOutcome`.

Two invariants are proved over histories of events:

- `TickLoopSound`: at most one tick callback is ever pending. None is pending
  while paused, so two tick loops never run at once. This holds for every
  history, starting from the constructor as written (`ReachableAsWritten`)
  or from the corrected one (`Reachable`).
- `ButtonMatches`: the play button reads `Pause` exactly while the engine
  plays. This holds only with the corrected constructor; see Findings.

## Model

| member | source | states |
|---|---|---|
| Text.Split | CavalryPlayer.js:111 | `key.split('.')` returns at least one piece, and no piece contains the separator |
| Text.Join | CavalryPlayer.js:112 | `attr.join('.')`: the first piece leads the result, and with two or more pieces the separator follows it at once |
| Text.JoinSplit | CavalryPlayer.js:111-112 | joining the pieces of a split with the same separator gives back the original string |
| Text.SplitAtFirst | CavalryPlayer.js:111 | splitting stops at the first separator: the text before it becomes the first piece, and the rest is split on its own |
| Text.SplitJoin | CavalryPlayer.js:111-112 | splitting the join of separator-free pieces gives the pieces back (the other direction of the round trip) |
| Text.Lower | CavalryPlayer.js:140 | `toLowerCase` keeps the length and lower-cases each ASCII letter in place |
| Text.Contains | CavalryPlayer.js:140 | `includes` is true exactly when the substring occurs at some index |
| Text.EndsWithConcat | serve.py:21-26 | `endswith(suffix)` holds exactly when the string is some prefix followed by the suffix |
| Vectors.Take | CavalryPlayer.js:219 | the array built from `get` has length `n`, and element i is `get(i)` |
| Vectors.VectorToArray | CavalryPlayer.js:217-220 | a value without a callable `size` gives `[]`; otherwise the result has length `size()` and element i is `get(i)` |
| Vectors.ArrayRoundTrip | CavalryPlayer.js:217-220 | a vector that serves the elements of an array converts back to exactly that array |
| Attributes.SplitKey | CavalryPlayer.js:111-112 | the layer id contains no dot. A key with a dot equals layer id + "." + path. A key without one is all layer id with an empty path |
| Attributes.SplitShape | CavalryPlayer.js:111-112 | a key splits into two or more pieces exactly when it contains a dot |
| Attributes.KeyRoundTrip | CavalryPlayer.js:111-112 | for a dot-free layer id, splitting `layerId.attrId` recovers both halves, whatever dots the path contains |
| Attributes.ChooseInput | CavalryPlayer.js:140-153 | colour picker iff the type is `color` or the lower-cased path contains `color`. Otherwise `int`/`double` give a range slider iff both hard limits exist, and a number box if not; missing limits throw. Any other type is untyped |
| Attributes.ColourTakesPrecedence | CavalryPlayer.js:140-141 | a path containing any case variant of `color` gets a colour picker, whatever the type and limits |
| Attributes.CreateControl | CavalryPlayer.js:109-129 | a control for the split key fails iff the definition is missing or the widget rule throws. On success its input follows the widget rule and its label is the display name, or the path when the name is empty |
| Attributes.CreateControls | CavalryPlayer.js:106-132 | succeeds iff every key's control does, giving exactly one control per key in input order; otherwise it fails with the error of the first failing key |
| Attributes.BuildPanel | CavalryPlayer.js:98-103 | no keys give the placeholder. Otherwise the panel holds exactly the controls of `createControls`, one per key in key order, or fails iff some key's control fails, with the first failing key's error |
| Playback.Autoplay | CavalryPlayer.js:23 | autoplay is on when the option is absent, and otherwise equals the option |
| Playback.Initial | CavalryPlayer.js:22-44 | a new player has no engine, no pending tick and an empty panel, and records the autoplay default |
| Playback.InitialAsWritten | CavalryPlayer.js:65 | the button of a new player reads `Pause` while nothing plays |
| Playback.Schedule | CavalryPlayer.js:195-197 | `requestAnimationFrame` adds the next token id to the pending set and stores it. When every pending id is below that id, the token is fresh. Only the scheduling fields change |
| Playback.Render | CavalryPlayer.js:214 | one render is counted and nothing else changes |
| Playback.RenderIfPaused | CavalryPlayer.js:170 | renders once when paused, and not at all while playing; nothing else changes |
| Playback.Play | CavalryPlayer.js:188-198 | the engine plays at the same frame, the button reads `Pause`, and exactly one tick callback is added, with a fresh token. Only the playing flag, button and scheduling fields change |
| Playback.Stop | CavalryPlayer.js:200-204 | the engine is paused at the same frame, the button reads `Play`, and the stored callback is no longer pending. Only the playing flag, button and pending set change |
| Playback.TogglePlayback | CavalryPlayer.js:183-186 | does nothing without an engine. Otherwise it flips the playing state and leaves the button naming the next action. Stopping cancels the stored tick and keeps `frameId`; playing adds one stored tick. Only the engine's playing flag, the label and the scheduling fields change |
| Playback.Fire | CavalryPlayer.js:191-196 | a cancelled token never runs. A tick with no engine or while paused only consumes its token. Otherwise the engine advances once, the slider follows only on `frameChanged`, and exactly one fresh callback replaces the fired one. Only the engine's frame and tick count, the slider value and the scheduling fields change |
| Playback.Restart | CavalryPlayer.js:206-210 | throws iff there is no engine. Otherwise frame and slider become 0, the playing state is kept, and it renders once iff paused. Only the engine frame, the slider value and the render count change |
| Playback.SeekAndRender | CavalryPlayer.js:212-213 | sets the frame, renders exactly once, and keeps the playing state, ticks and slider. Only the engine frame and the render count change |
| Playback.Prev | CavalryPlayer.js:212 | throws iff there is no engine. Otherwise the frame becomes current − 1 and there is exactly one render. The playing state, pending tick, slider and button are unchanged, so playback is not stopped. Only the engine frame and the render count change |
| Playback.Next | CavalryPlayer.js:213 | throws iff there is no engine. Otherwise the frame becomes current + 1 and there is exactly one render. The playing state, pending tick, slider and button are unchanged, so playback is not stopped. Only the engine frame and the render count change |
| Playback.Resize | CavalryPlayer.js:156-171 | does nothing without an engine or a canvas parent. Otherwise it makes one new surface and renders once iff paused. Only the surface and the render count change |
| Playback.SetTimelineAttributes | CavalryPlayer.js:173-181 | the slider spans the scene's frame range, starts at the start frame and gets its scrub handler; nothing else changes |
| Playback.Scrub | CavalryPlayer.js:177-180 | without the handler nothing happens. Otherwise the frame and slider take the dragged value, with one render whether or not the scene plays. The playing state, pending tick and button are kept: seeking happens while playing. Only the engine frame, the slider value and the render count change |
| Playback.ColourInput | CavalryPlayer.js:143-146 | on a colour picker, exactly one `setAttribute` with the raw picker string, then one render iff paused. Any other input has no handler and changes nothing. On a picker, only the engine's write log and the render count change |
| Playback.LoadControlCentreAttributes | CavalryPlayer.js:93-104 | does nothing without an engine. Otherwise only the panel changes: a placeholder for no keys, exactly the controls of `createControls` in key order, or cleared. An error is reported iff building the panel throws |
| Playback.Open | CavalryPlayer.js:83 | a freshly opened scene is paused at its start frame with no attribute writes |
| Playback.LoadScene | CavalryPlayer.js:79-91 | never throws and logs each failure once. An existing engine is stopped first. A file that does not open changes only the engine's playing flag, the label, the pending ticks and the log. An opened file installs its own engine. Controls are built before the slider, surface and play, and a build failure leaves the slider, scrub handler, surface and render count untouched. On success the scrub handler is installed, the slider spans the scene, and an attached canvas gets one surface and one render. Playback starts iff autoplay is on |
| Playback.StartScene | CavalryPlayer.js:83-87 | after a file opens: the new engine is the opened scene's; a build failure logs once and leaves slider, scrub handler, surface and renders alone; success installs the scrub handler, spans the slider over the scene, makes one surface and one render on an attached canvas, and plays iff autoplay is on |
| Playback.ApplyKeepsTickLoopSound | CavalryPlayer.js:183-213 | every event keeps at most one tick pending: exactly the stored one while playing, none while paused |
| Playback.LoadKeepsTickLoopSound | CavalryPlayer.js:79-91 | loading a scene cancels the old tick loop before it starts a new one |
| Playback.ApplyKeepsButtonMatches | CavalryPlayer.js:183-204 | every event keeps the button text equal to `Pause` while playing and `Play` otherwise |
| Playback.Apply | CavalryPlayer.js:30-33 | each click, the resize listener, the slider and a picker reach their handler; a handler that throws for want of an engine leaves the player unchanged, so before the first scene every interface event is a no-op. Only loading creates an engine, changes the scene's frame range or schema, the panel or the error log |
| Playback.RunKeepsTickLoopSound | CavalryPlayer.js:79-213 | any sequence of events keeps the scheduling invariant |
| Playback.ReachableAsWritten | CavalryPlayer.js:22-213 | from the constructor exactly as written, after any events: at most one pending tick, exactly the stored one while playing and none while paused |
| Playback.RunKeepsInvariants | CavalryPlayer.js:79-213 | any sequence of events keeps both invariants |
| Playback.Reachable | CavalryPlayer.js:22-213 | from construction, after any events: at most one pending tick, none while paused, and the button matches the playing state |
| Playback.StopCancelsTicks | CavalryPlayer.js:200-204 | after `stop()` nothing is pending, and no animation-frame callback changes the player |
| Playback.TickKeepsLoopAlive | CavalryPlayer.js:191-196 | while playing, firing the pending tick keeps playing, keeps exactly one tick pending and counts one engine tick |
| Playback.PrevThenNext | CavalryPlayer.js:212-213 | `prev()` then `next()` returns to the starting frame after exactly two renders |
| Playback.PrevLeavesRange | CavalryPlayer.js:212 | `prev()` at the start frame moves below it: there is no clamping |
| Playback.ToggleTwice | CavalryPlayer.js:183-186 | toggling twice restores the playing state |
| Playback.AsWrittenButtonMismatch | CavalryPlayer.js:65 | with the constructor as written and autoplay off, a loaded scene is paused while its button reads `Pause` |
| Server.RequestsOne | serve.py:21-26 | a path requests at most one of the three engine files |
| Server.TranslatePath | serve.py:19-28 | a path ending in `/` plus an engine file name maps to `wasm-lib/<name>`. Any other path goes to the base translation unchanged |
| Server.RoutesFromAnyDirectory | serve.py:21-26 | any directory prefix before `/<engine file>` routes to the same `wasm-lib` target |
| Server.GluedNameNotRouted | serve.py:21-28 | `/xCavalryWasm.js` is not rerouted; it goes to the base translation |
| Server.EndHeaders | serve.py:14-17 | the flushed headers are the buffered ones followed by the embedder policy and then the opener policy |
| Server.EveryResponseIsolated | serve.py:14-17 | every flushed response carries both cross-origin isolation headers |
| Server.FindAvailablePort | serve.py:30-44 | returns the first port in `[start, start + attempts)` that binds, after only "in use" ports. Another error is raised at the first port that gives it. The search is exhausted iff every port is in use, naming the range `start`..`start + attempts − 1` |
| Server.FindDefaultPort | serve.py:46 | the script's call returns the first port in 8000..8009 that binds, after only "in use" ports. It raises at the first other error, and is exhausted iff all ten ports are in use, naming 8000-8009 |

## Left out

- WASM engine import and initialisation (CavalryPlayer.js:1-8): the engine is a foreign module. Only the state the player reads and drives is modelled.
- DOM construction, event wiring and the window `resize` listener (CavalryPlayer.js:25-44, 53-77). This is UI plumbing. `Apply` stands in for the wired handlers.
- `load(url)` and its `fetch` (CavalryPlayer.js:46-51), and the virtual-filesystem write (CavalryPlayer.js:82): I/O. A file the engine cannot open is `LoadScene(s, None)`.
- Playback.Resize: leaves out the scale arithmetic and canvas size (CavalryPlayer.js:162-168), which are floating-point pixel computations. Only the guards, the new surface and the render-if-paused rule are kept.
- Playback.Fire: the engine's clock and the timestamp are not modelled. The tick's report is a parameter. The engine's playing flag changes only on `play()`/`stop()`: an engine that stops itself at the end of a non-looping scene is not modelled.
- Playback.SeekAndRender: the engine is assumed to store `setFrame`'s argument unclamped. `Prev`, `Next`, `Restart`, `Scrub` and `Fire` rely on the same assumption. The real engine is opaque and may clamp. So `PrevLeavesRange` shows that the handler passes `startFrame − 1` to `setFrame`; it does not show what frame the engine then displays.
- Playback.Stop: the engine is assumed to keep its current frame on `play()` and `stop()` (CavalryPlayer.js:189, 201). `Play`, `TogglePlayback` and `LoadScene` rely on the same assumption.
- Playback.Open: the engine's state for a freshly opened scene is assumed to be paused at its start frame.
- Playback.Scrub: `parseInt` of the slider string is not modelled; the slider value is taken as an integer.
- The browser's sanitisation of a range input's value is not modelled. The slider is modelled as holding the value last written to it, although the browser clamps it into `min`..`max`. So `Restart`'s slider value 0 differs from what the browser shows whenever the start frame is above 0.
- Text.Lower: maps only ASCII `A`–`Z`. No non-ASCII character lower-cases to a letter of `color`, so the colour test is unaffected.
- Attributes.CreateControl: the engine's `getAttribute` value is read but never used by `createControl`, so it is not modelled. A missing or empty display name falls back to the path. A missing definition is modelled as the `TypeError` it raises.
- Attributes.ChooseInput: only `hasHardMin`/`hasHardMax` of `numericInfo` are read by the code, so only those are modelled. The code sets no `min`, `max`, `step` or initial value on the input.
- Engine calls are assumed not to throw, except the dereferences the model names. Those are a missing engine (`NoPlayer`), a missing definition, and missing limits.
- serve.py socket creation, `serve_forever`, the browser launch and shutdown (serve.py:47-61): network and process I/O. The base handler's `translate_path` is the `fallback` parameter.
- Server.FindAvailablePort: the test server's bind-and-close is the `bind` oracle. The printed message and `sys.exit(1)` become `Exhausted(first, last)`.
- app.js: page bootstrap and error display only.
- Colour-space conversion, asset replacement, font indexing, seek clamping and stop-before-step do not occur in this code, so they are not modelled.
  - A colour edit sends the picker's raw string.
  - `restart` goes to frame 0, not to the scene's start frame.
  - `prev`/`next` neither stop playback nor clamp.
  - Unsupported attribute types still get one (untyped) input each.

## Findings

| source | as written | input that shows it | evidently intended | confidence | as-written member | corrected member |
|---|---|---|---|---|---|---|
| CavalryPlayer.js:65 | the play button's markup reads `Pause`. Only `play()`/`stop()` ever change it, and `loadScene` with autoplay off calls neither on a first load | `new CavalryPlayer(parent, { autoplay: false })`, then loading any scene that opens | the toggle's label names what a click does: `Play` while paused | medium, not executed | Playback.AsWrittenButtonMismatch | Playback.Reachable |

The corrected constructor `Playback.Initial` starts the button at `Play`. The
as-written one, `Playback.InitialAsWritten`, keeps `Pause`. `Playback.Reachable`
proves that the button matches the playing state after any sequence of events
from the corrected constructor.

=== FILE: attributes.dfy ===
/**
 The Control Centre binding: splitting an engine attribute key into a layer
 id and an attribute path, choosing the input widget for an attribute from
 its declared type and numeric limits, and building one control per key.
 */
module Attributes {
  import opened Base
  import opened Text

  /** An attribute of a layer: `layerId` and the dotted path inside the layer. */
  datatype AttrRef = AttrRef(layerId: string, attrId: string)

  /** The limit flags of `numericInfo` that the widget choice reads. */
  datatype Limits = Limits(hasHardMin: bool, hasHardMax: bool)

  /**
   What the engine answers for one attribute: its declared type string,
   its `numericInfo` (absent for non-numeric types) and its display name.
   */
  datatype Definition = Definition(typeName: string, limits: Option<Limits>, displayName: string)

  /** The `type` given to the generated `<input>`; `Untyped` leaves it unset. */
  datatype InputKind = ColourPicker | RangeSlider | NumberBox | Untyped

  /** One control group: the attribute it edits, its label text and its input. */
  datatype Control = Control(ref: AttrRef, labelText: string, input: InputKind)

  /** The exceptions building a control can raise (a property read on `undefined`). */
  datatype ControlError = MissingDefinition(ref: AttrRef) | MissingLimits(ref: AttrRef)

  /** The content of the Control Centre panel. */
  datatype Panel = Empty | Placeholder | Controls(controls: seq<Control>)

  const KeySeparator := '.'

  /**
   `const [layerId, ...attr] = key.split('.')` followed by `attr.join('.')`:
   the layer id is the text before the first dot and the path is everything
   after it; a key without a dot has an empty path.
   */
  function SplitKey(key: string): (r: AttrRef)
    ensures KeySeparator !in r.layerId
    ensures KeySeparator in key ==> key == r.layerId + [KeySeparator] + r.attrId
    ensures KeySeparator !in key ==> r.layerId == key && r.attrId == ""
  {
    var parts := Split(key, KeySeparator);
    SplitShape(key);
    AttrRef(parts[0], Join(parts[1..], KeySeparator))
  }

  /** A key splits into one piece exactly when it has no dot; the pieces rejoin to the key. */
  lemma SplitShape(key: string)
    ensures Join(Split(key, KeySeparator), KeySeparator) == key
    ensures |Split(key, KeySeparator)| >= 2 <==> KeySeparator in key
  {
  }

  /** Splitting the key `layerId.attrId` recovers both halves, whatever dots `attrId` holds. */
  lemma KeyRoundTrip(layerId: string, attrId: string)
    requires KeySeparator !in layerId
    ensures SplitKey(layerId + [KeySeparator] + attrId) == AttrRef(layerId, attrId)
  {
    var key := layerId + [KeySeparator] + attrId;
    SplitAtFirst(layerId, KeySeparator, attrId);
    JoinSplit(attrId, KeySeparator);
  }

  /** The attribute is treated as a colour: declared `'color'`, or its path names a colour. */
  predicate IsColourAttribute(typeName: string, attrId: string) {
    typeName == "color" || Contains(Lower(attrId), "color")
  }

  /** The declared type is one of the two numeric types. */
  predicate IsNumericType(typeName: string) {
    typeName == "int" || typeName == "double"
  }

  /**
   The widget rule of `createControl`; `None` is the `TypeError` raised when
   a numeric, non-colour attribute comes without `numericInfo`.
   */
  function ChooseInput(typeName: string, attrId: string, limits: Option<Limits>): (r: Option<InputKind>)
    ensures r == Some(ColourPicker) <==>
      typeName == "color" || Occurs(Lower(attrId), "color")
    ensures !IsColourAttribute(typeName, attrId) && IsNumericType(typeName) ==>
      (r.None? <==> limits.None?) &&
      (limits.Some? ==> (r == Some(RangeSlider) <==> limits.value.hasHardMin && limits.value.hasHardMax)) &&
      (limits.Some? ==> (r == Some(NumberBox) <==> !(limits.value.hasHardMin && limits.value.hasHardMax)))
    ensures !IsColourAttribute(typeName, attrId) && !IsNumericType(typeName) ==> r == Some(Untyped)
  {
    if IsColourAttribute(typeName, attrId) then Some(ColourPicker)
    else if IsNumericType(typeName) then
      match limits
      case None => None
      case Some(l) => Some(if l.hasHardMin && l.hasHardMax then RangeSlider else NumberBox)
    else Some(Untyped)
  }

  /** A colour-named attribute gets a colour picker whatever its type and limits say. */
  lemma ColourTakesPrecedence(typeName: string, layerPart: string, colourPart: string, rest: string, limits: Option<Limits>)
    requires Lower(colourPart) == "color"
    ensures ChooseInput(typeName, layerPart + colourPart + rest, limits) == Some(ColourPicker)
  {
    var a := layerPart + colourPart + rest;
    var low := Lower(a);
    assert low[|layerPart|..|layerPart| + 5] == Lower(colourPart) by {
      forall k | 0 <= k < 5
        ensures low[|layerPart| + k] == Lower(colourPart)[k]
      {
        assert a[|layerPart| + k] == colourPart[k];
      }
    }
    assert OccursAt(low, "color", |layerPart|);
  }

  /**
   The body of the `createControls` loop for one key: split it, look up its
   definition, label it with the display name (or the path when the name is
   empty) and choose its input.
   */
  function CreateControl(key: string, schema: map<AttrRef, Definition>): (r: Result<Control, ControlError>)
    ensures SplitKey(key) !in schema ==> r == Failure(MissingDefinition(SplitKey(key)))
    ensures SplitKey(key) in schema ==>
      var d := schema[SplitKey(key)];
      (r.Success? <==> ChooseInput(d.typeName, SplitKey(key).attrId, d.limits).Some?) &&
      (r.Success? ==> r.value.ref == SplitKey(key) &&
                      r.value.input == ChooseInput(d.typeName, SplitKey(key).attrId, d.limits).value &&
                      (d.displayName != "" ==> r.value.labelText == d.displayName) &&
                      (d.displayName == "" ==> r.value.labelText == SplitKey(key).attrId))
  {
    var ref := SplitKey(key);
    if ref !in schema then Failure(MissingDefinition(ref))
    else
      var d := schema[ref];
      match ChooseInput(d.typeName, ref.attrId, d.limits)
      case None => Failure(MissingLimits(ref))
      case Some(kind) => Success(Control(ref, if d.displayName == "" then ref.attrId else d.displayName, kind))
  }

  /**
   `createControls`: one control group per key, in input order; the first
   key whose control throws aborts the whole build with that error.
   */
  function CreateControls(keys: seq<string>, schema: map<AttrRef, Definition>): (r: Result<seq<Control>, ControlError>)
    ensures r.Success? <==> forall i :: 0 <= i < |keys| ==> CreateControl(keys[i], schema).Success?
    ensures r.Success? ==>
      |r.value| == |keys| &&
      forall i :: 0 <= i < |keys| ==> Success(r.value[i]) == CreateControl(keys[i], schema)
    ensures r.Failure? ==>
      exists i :: 0 <= i < |keys| && CreateControl(keys[i], schema) == Failure(r.error) &&
        forall j :: 0 <= j < i ==> CreateControl(keys[j], schema).Success?
    decreases |keys|
  {
    if |keys| == 0 then Success([])
    else
      match CreateControl(keys[0], schema)
      case Failure(e) => Failure(e)
      case Success(c) =>
        match CreateControls(keys[1..], schema)
        case Failure(e) =>
          assert forall j :: 1 <= j < |keys| ==> keys[1..][j - 1] == keys[j];
          Failure(e)
        case Success(cs) =>
          assert forall j :: 1 <= j < |keys| ==> keys[1..][j - 1] == keys[j];
          Success([c] + cs)
  }

  /**
   The panel `loadControlCentreAttributes` leaves behind, or the error it
   throws: a placeholder for no keys, otherwise the generated controls.
   */
  function BuildPanel(keys: seq<string>, schema: map<AttrRef, Definition>): (r: Result<Panel, ControlError>)
    ensures |keys| == 0 ==> r == Success(Placeholder)
    ensures r.Success? && |keys| > 0 ==> r.value.Controls? && |r.value.controls| == |keys|
    ensures r.Failure? <==> exists i :: 0 <= i < |keys| && CreateControl(keys[i], schema).Failure?
    ensures r.Success? && |keys| > 0 ==>
      CreateControls(keys, schema).Success? && r.value == Controls(CreateControls(keys, schema).value)
    ensures r.Failure? ==> CreateControls(keys, schema).Failure? && r.error == CreateControls(keys, schema).error
  {
    if |keys| == 0 then Success(Placeholder)
    else
      match CreateControls(keys, schema)
      case Success(cs) => Success(Controls(cs))
      case Failure(e) => Failure(e)
  }
}

=== FILE: base.dfy ===
/** Small failure-carrying datatypes shared by every module of the model. */
module Base {

  /** A value that may be absent (JavaScript `null`/`undefined`). */
  datatype Option<T> = None | Some(value: T) {

    /** The value, or `default` when absent (JavaScript `??`). */
    function GetOr(default: T): T {
      match this
      case Some(v) => v
      case None => default
    }
  }

  /** The outcome of an operation that may throw. */
  datatype Result<T, E> = Success(value: T) | Failure(error: E)
}

=== FILE: playback.dfy ===
/**
 The player shell around the opaque animation engine: the playback state
 machine (play, stop, toggle, the per-frame tick), frame navigation, the
 render-when-paused policy, scene loading and the colour-edit handler.

 The player is an immutable record. The engine appears only through the
 state it holds for the player (playing flag, current frame, frame range,
 attribute schema, the attribute writes it received, the ticks it ran);
 `requestAnimationFrame` is a set of pending callback tokens.
 */
module Playback {
  import opened Base
  import opened Vectors
  import opened Attributes

  const PlayLabel := "Play"
  const PauseLabel := "Pause"

  /** The frame slider: its bounds and the value last written to it. */
  datatype Timeline = Timeline(min: int, max: int, value: int)

  /** The markup's slider, `<input type="range" value="0">`, has the browser's default bounds 0..100. */
  const InitialTimeline := Timeline(0, 100, 0)

  /** What one engine tick reports. */
  datatype TickStatus = TickStatus(frameChanged: bool, currentFrame: int)

  /** One `setAttribute(layerId, attrId, value)` call received by the engine. */
  datatype AttributeWrite = AttributeWrite(ref: AttrRef, value: string)

  /** The engine state the player observes and drives. */
  datatype Engine = Engine(
    playing: bool,
    frame: int,
    startFrame: int,
    endFrame: int,
    schema: map<AttrRef, Definition>,
    writes: seq<AttributeWrite>,
    ticks: nat)

  /** What the engine offers once a scene file is opened. */
  datatype Scene = Scene(
    startFrame: int,
    endFrame: int,
    controlCentre: Vector<string>,
    schema: map<AttrRef, Definition>)

  /** The error a handler throws when it dereferences a missing engine. */
  datatype PlayerError = NoPlayer

  /**
   The player object. `engine` is `player` (absent before the first scene);
   `pending` holds the animation-frame callbacks not yet run or cancelled,
   `frameId` the last id stored by `play`/`tick`, `nextToken` the id the next
   `requestAnimationFrame` returns; `scrubbing` says whether the slider has its
   `oninput` handler; `surface` counts drawing surfaces made, `renders` the
   explicit `render()` calls; `attached` says whether the canvas has a parent
   element (the markup always nests the canvas in its container, so a player
   the page builds always has it; `resize` still tests for it); `logged` counts errors written to the console.
   */
  datatype Player = Player(
    engine: Option<Engine>,
    buttonText: string,
    timeline: Timeline,
    scrubbing: bool,
    pending: set<nat>,
    frameId: Option<nat>,
    nextToken: nat,
    panel: Panel,
    surface: nat,
    renders: nat,
    attached: bool,
    autoplay: bool,
    logged: nat)

  /** The engine exists and is playing. */
  predicate Playing(s: Player) {
    s.engine.Some? && s.engine.value.playing
  }

  /** `options.autoplay ?? true`. */
  function Autoplay(option: Option<bool>): (b: bool)
    ensures option.None? ==> b
    ensures option.Some? ==> b == option.value
  {
    option.GetOr(true)
  }

  /**
   The constructor, with the play button reading `Play` (see the finding
   in the README: the markup writes `Pause`).
   */
  function Initial(autoplay: Option<bool>, attached: bool): (s: Player)
    ensures s.engine.None? && s.pending == {} && s.panel == Empty
    ensures s.autoplay == Autoplay(autoplay)
  {
    Player(None, PlayLabel, InitialTimeline, false, {}, None, 1, Empty, 0, 0, attached, Autoplay(autoplay), 0)
  }

  /** The constructor as written: the button starts out reading `Pause`. */
  function InitialAsWritten(autoplay: Option<bool>, attached: bool): (s: Player)
    ensures s.engine.None? && !Playing(s) && s.buttonText == PauseLabel
  {
    Initial(autoplay, attached).(buttonText := PauseLabel)
  }

  /** `requestAnimationFrame(tick)`, its id stored in `frameId`. */
  function Schedule(s: Player): (r: Player)
    ensures r.frameId == Some(s.nextToken) && r.pending == s.pending + {s.nextToken}
    ensures r.nextToken > s.nextToken
    ensures (forall t :: t in s.pending ==> t < s.nextToken) ==> s.nextToken !in s.pending
    ensures r.(pending := s.pending, frameId := s.frameId, nextToken := s.nextToken) == s
  {
    s.(pending := s.pending + {s.nextToken}, frameId := Some(s.nextToken), nextToken := s.nextToken + 1)
  }

  /** `render()`: one explicit draw of the current frame. */
  function Render(s: Player): (r: Player)
    requires s.engine.Some?
    ensures r.renders == s.renders + 1
    ensures r.(renders := s.renders) == s
  {
    s.(renders := s.renders + 1)
  }

  /** The render-on-demand rule: one render when the engine is paused, none while it plays. */
  function RenderIfPaused(s: Player): (r: Player)
    requires s.engine.Some?
    ensures r.renders == s.renders + (if s.engine.value.playing then 0 else 1)
    ensures r.(renders := s.renders) == s
  {
    if s.engine.value.playing then s else Render(s)
  }

  /** `play()`: start the engine clock, label the button `Pause`, schedule one tick. */
  function Play(s: Player): (r: Player)
    requires s.engine.Some?
    ensures Playing(r) && r.buttonText == PauseLabel
    ensures r.engine.value.frame == s.engine.value.frame
    ensures r.frameId.Some? && r.pending == s.pending + {r.frameId.value}
    ensures (forall t :: t in s.pending ==> t < s.nextToken) ==> r.frameId.value !in s.pending
    ensures r.renders == s.renders && r.timeline == s.timeline && r.panel == s.panel
    ensures r.(engine := s.engine, buttonText := s.buttonText, pending := s.pending,
               frameId := s.frameId, nextToken := s.nextToken) == s
    ensures r.engine.value.(playing := s.engine.value.playing) == s.engine.value
  {
    Schedule(s.(engine := Some(s.engine.value.(playing := true)), buttonText := PauseLabel))
  }

  /** `stop()`: halt the engine clock, label the button `Play`, cancel the stored callback. */
  function Stop(s: Player): (r: Player)
    requires s.engine.Some?
    ensures !Playing(r) && r.engine.Some? && r.buttonText == PlayLabel
    ensures r.engine.value.frame == s.engine.value.frame
    ensures s.frameId.Some? ==> r.pending == s.pending - {s.frameId.value}
    ensures s.frameId.None? ==> r.pending == s.pending
    ensures r.renders == s.renders && r.timeline == s.timeline && r.frameId == s.frameId
    ensures r.(engine := s.engine, buttonText := s.buttonText, pending := s.pending) == s
    ensures r.engine.value.(playing := s.engine.value.playing) == s.engine.value
  {
    var cancelled := if s.frameId.Some? then {s.frameId.value} else {};
    s.(engine := Some(s.engine.value.(playing := false)), buttonText := PlayLabel, pending := s.pending - cancelled)
  }

  /** `togglePlayback()`: nothing without an engine, otherwise stop when playing and play when not. */
  function TogglePlayback(s: Player): (r: Player)
    ensures s.engine.None? ==> r == s
    ensures s.engine.Some? ==> r.engine.Some? && r.engine.value.playing == !s.engine.value.playing
    ensures s.engine.Some? ==> r.buttonText == (if Playing(r) then PauseLabel else PlayLabel)
    ensures s.engine.Some? ==>
      && r.(engine := s.engine, buttonText := s.buttonText, pending := s.pending,
            frameId := s.frameId, nextToken := s.nextToken) == s
      && r.engine.value.(playing := s.engine.value.playing) == s.engine.value
    ensures s.engine.Some? && s.engine.value.playing ==>
      && r.frameId == s.frameId
      && r.pending == (if s.frameId.Some? then s.pending - {s.frameId.value} else s.pending)
    ensures s.engine.Some? && !s.engine.value.playing ==>
      r.frameId.Some? && r.pending == s.pending + {r.frameId.value}
  {
    if s.engine.None? then s
    else if s.engine.value.playing then Stop(s)
    else Play(s)
  }

  /**
   The browser runs the callback `token` (a cancelled or unknown token never
   runs). The tick returns early when there is no engine or it is not
   playing; otherwise the engine advances once, the slider follows the
   reported frame only when it changed, and one new callback is scheduled.
   */
  function Fire(s: Player, token: nat, status: TickStatus): (r: Player)
    ensures token !in s.pending ==> r == s
    ensures token in s.pending && !Playing(s) ==>
      r == s.(pending := s.pending - {token})
    ensures token in s.pending && Playing(s) ==>
      && Playing(r)
      && r.engine.value.ticks == s.engine.value.ticks + 1
      && r.engine.value.frame == status.currentFrame
      && r.timeline.value == (if status.frameChanged then status.currentFrame else s.timeline.value)
      && r.frameId.Some?
      && r.pending == (s.pending - {token}) + {r.frameId.value}
      && ((forall t :: t in s.pending ==> t < s.nextToken) ==> r.frameId.value !in s.pending)
      && r.renders == s.renders
    ensures token in s.pending && Playing(s) ==>
      && r.(engine := s.engine, timeline := s.timeline, pending := s.pending,
            frameId := s.frameId, nextToken := s.nextToken) == s
      && r.timeline.(value := s.timeline.value) == s.timeline
      && r.engine.value.(frame := s.engine.value.frame, ticks := s.engine.value.ticks) == s.engine.value
  {
    if token !in s.pending then s
    else
      var s1 := s.(pending := s.pending - {token});
      if !Playing(s1) then s1
      else
        var e := s1.engine.value;
        var timeline := if status.frameChanged then s1.timeline.(value := status.currentFrame) else s1.timeline;
        Schedule(s1.(engine := Some(e.(frame := status.currentFrame, ticks := e.ticks + 1)), timeline := timeline))
  }

  /** `restart()`: frame 0 and slider 0 (not the scene's start frame), rendered only when paused. */
  function Restart(s: Player): (r: Result<Player, PlayerError>)
    ensures s.engine.None? <==> r.Failure?
    ensures r.Success? ==>
      && r.value.engine.Some?
      && r.value.engine.value.frame == 0
      && r.value.timeline.value == 0
      && r.value.engine.value.playing == s.engine.value.playing
      && r.value.renders == s.renders + (if s.engine.value.playing then 0 else 1)
      && r.value.pending == s.pending
    ensures r.Success? ==>
      && r.value.(engine := s.engine, renders := s.renders, timeline := s.timeline) == s
      && r.value.timeline.(value := s.timeline.value) == s.timeline
      && r.value.engine.value.(frame := s.engine.value.frame) == s.engine.value
  {
    if s.engine.None? then Failure(NoPlayer)
    else
      var e := s.engine.value;
      Success(RenderIfPaused(s.(engine := Some(e.(frame := 0)), timeline := s.timeline.(value := 0))))
  }

  /** `setFrame(frame)` followed by one unconditional `render()`. */
  function SeekAndRender(s: Player, frame: int): (r: Player)
    requires s.engine.Some?
    ensures r.engine.Some? && r.engine.value.frame == frame
    ensures r.engine.value.playing == s.engine.value.playing
    ensures r.renders == s.renders + 1 && r.pending == s.pending && r.timeline == s.timeline
    ensures r.buttonText == s.buttonText
    ensures r.(engine := s.engine, renders := s.renders) == s
    ensures r.engine.value.(frame := s.engine.value.frame) == s.engine.value
  {
    Render(s.(engine := Some(s.engine.value.(frame := frame))))
  }

  /** `prev()`: one frame back, with no lower bound, always rendered. */
  function Prev(s: Player): (r: Result<Player, PlayerError>)
    ensures s.engine.None? <==> r.Failure?
    ensures r.Success? ==>
      && r.value.engine.Some?
      && r.value.engine.value.frame == s.engine.value.frame - 1
      && r.value.renders == s.renders + 1
      && r.value.engine.value.playing == s.engine.value.playing
      && r.value.pending == s.pending
      && r.value.timeline == s.timeline
      && r.value.buttonText == s.buttonText
      && r.value.(engine := s.engine, renders := s.renders) == s
      && r.value.engine.value.(frame := s.engine.value.frame) == s.engine.value
  {
    if s.engine.None? then Failure(NoPlayer) else Success(SeekAndRender(s, s.engine.value.frame - 1))
  }

  /** `next()`: one frame forward, with no upper bound, always rendered. */
  function Next(s: Player): (r: Result<Player, PlayerError>)
    ensures s.engine.None? <==> r.Failure?
    ensures r.Success? ==>
      && r.value.engine.Some?
      && r.value.engine.value.frame == s.engine.value.frame + 1
      && r.value.renders == s.renders + 1
      && r.value.engine.value.playing == s.engine.value.playing
      && r.value.pending == s.pending
      && r.value.timeline == s.timeline
      && r.value.buttonText == s.buttonText
      && r.value.(engine := s.engine, renders := s.renders) == s
      && r.value.engine.value.(frame := s.engine.value.frame) == s.engine.value
  {
    if s.engine.None? then Failure(NoPlayer) else Success(SeekAndRender(s, s.engine.value.frame + 1))
  }

  /**
   `resize()` with the scale arithmetic left out: without an engine or a
   canvas parent nothing happens; otherwise a new drawing surface is made
   and the frame is rendered only when paused.
   */
  function Resize(s: Player): (r: Player)
    ensures s.engine.None? || !s.attached ==> r == s
    ensures s.engine.Some? && s.attached ==>
      && r.surface == s.surface + 1
      && r.renders == s.renders + (if s.engine.value.playing then 0 else 1)
      && r.engine == s.engine && r.pending == s.pending
      && r.(surface := s.surface, renders := s.renders) == s
  {
    if s.engine.None? || !s.attached then s
    else RenderIfPaused(s.(surface := s.surface + 1))
  }

  /** `setTimelineAttributes()`: slider bounds and value from the scene's frame range; installs the scrub handler. */
  function SetTimelineAttributes(s: Player): (r: Player)
    requires s.engine.Some?
    ensures r.timeline == Timeline(s.engine.value.startFrame, s.engine.value.endFrame, s.engine.value.startFrame)
    ensures r.scrubbing
    ensures r.(timeline := s.timeline, scrubbing := s.scrubbing) == s
  {
    var e := s.engine.value;
    s.(timeline := Timeline(e.startFrame, e.endFrame, e.startFrame), scrubbing := true)
  }

  /** The slider's `oninput`: jump to the dragged frame and render, playing or not. */
  function Scrub(s: Player, frame: int): (r: Player)
    ensures !s.scrubbing || s.engine.None? ==> r == s
    ensures s.scrubbing && s.engine.Some? ==>
      && r.engine.Some? && r.engine.value.frame == frame && r.timeline.value == frame && r.renders == s.renders + 1
      && r.engine.value.playing == s.engine.value.playing
      && r.pending == s.pending
      && r.buttonText == s.buttonText
      && r.(engine := s.engine, renders := s.renders, timeline := s.timeline) == s
      && r.timeline.(value := s.timeline.value) == s.timeline
      && r.engine.value.(frame := s.engine.value.frame) == s.engine.value
  {
    if !s.scrubbing || s.engine.None? then s
    else SeekAndRender(s.(timeline := s.timeline.(value := frame)), frame)
  }

  /**
   A colour picker's `oninput`: the picker's raw string goes to the engine
   in exactly one `setAttribute` call, then one render follows only when
   paused. Inputs that are not colour pickers have no handler.
   */
  function ColourInput(s: Player, index: int, value: string): (r: Player)
    ensures
      (s.engine.None? || !s.panel.Controls? || !(0 <= index < |s.panel.controls|) ||
       s.panel.controls[index].input != ColourPicker) ==> r == s
    ensures
      s.engine.Some? && s.panel.Controls? && 0 <= index < |s.panel.controls| &&
      s.panel.controls[index].input == ColourPicker ==>
        && r.engine.Some?
        && r.engine.value.writes == s.engine.value.writes + [AttributeWrite(s.panel.controls[index].ref, value)]
        && r.engine.value.playing == s.engine.value.playing
        && r.engine.value.frame == s.engine.value.frame
        && r.renders == s.renders + (if s.engine.value.playing then 0 else 1)
        && r.pending == s.pending && r.panel == s.panel
        && r.(engine := s.engine, renders := s.renders) == s
        && r.engine.value.(writes := s.engine.value.writes) == s.engine.value
  {
    if s.engine.None? || !s.panel.Controls? || !(0 <= index < |s.panel.controls|) ||
       s.panel.controls[index].input != ColourPicker then s
    else
      var e := s.engine.value;
      var write := AttributeWrite(s.panel.controls[index].ref, value);
      RenderIfPaused(s.(engine := Some(e.(writes := e.writes + [write]))))
  }

  /** The panel after `loadControlCentreAttributes`, and the error it threw, if any. */
  datatype Loaded = Loaded(player: Player, error: Option<ControlError>)

  /**
   `loadControlCentreAttributes()`: nothing without an engine; otherwise the
   panel is cleared and then holds one control per Control Centre key, or a
   placeholder when there are none. A throwing control leaves it cleared.
   */
  function LoadControlCentreAttributes(s: Player, keys: Vector<string>): (r: Loaded)
    ensures s.engine.None? ==> r == Loaded(s, None)
    ensures s.engine.Some? ==> r.player.(panel := s.panel) == s
    ensures s.engine.Some? && |VectorToArray(keys)| == 0 ==> r == Loaded(s.(panel := Placeholder), None)
    ensures s.engine.Some? && r.error.None? && r.player.panel.Controls? ==>
      |r.player.panel.controls| == |VectorToArray(keys)|
    ensures s.engine.Some? && r.error.Some? ==> r.player.panel == Empty
    ensures s.engine.Some? ==>
      (r.error.Some? <==> BuildPanel(VectorToArray(keys), s.engine.value.schema).Failure?)
    ensures s.engine.Some? && r.error.None? && |VectorToArray(keys)| > 0 ==>
      r.player.panel == Controls(CreateControls(VectorToArray(keys), s.engine.value.schema).value)
  {
    if s.engine.None? then Loaded(s, None)
    else
      match BuildPanel(VectorToArray(keys), s.engine.value.schema)
      case Success(panel) => Loaded(s.(panel := panel), None)
      case Failure(err) => Loaded(s.(panel := Empty), Some(err))
  }

  /** The engine state of a freshly opened scene: paused at its start frame, nothing written. */
  function Open(scene: Scene): (e: Engine)
    ensures !e.playing && e.frame == scene.startFrame && e.writes == []
  {
    Engine(false, scene.startFrame, scene.startFrame, scene.endFrame, scene.schema, [], 0)
  }

  /**
   `loadScene()`. `scene` is `None` when the engine refuses the file. The
   previous engine is stopped first; controls are built before the slider
   and the surface; playback starts only with autoplay; every error is
   logged and swallowed.
   */
  function LoadScene(s: Player, scene: Option<Scene>): (r: Player)
    ensures s.engine.Some? ==> r.engine.Some?
    ensures scene.None? ==> r.logged == s.logged + 1 && r.timeline == s.timeline && r.panel == s.panel
    ensures r.attached == s.attached && r.autoplay == s.autoplay
    ensures scene.None? ==>
      r.(engine := s.engine, buttonText := s.buttonText, pending := s.pending, logged := s.logged) == s
    ensures scene.None? && s.engine.None? ==> r.engine.None?
    ensures scene.None? && s.engine.Some? ==>
      r.engine == Some(s.engine.value.(playing := false)) && r.buttonText == PlayLabel
    ensures scene.Some? ==>
      && r.engine.Some?
      && r.engine.value.startFrame == scene.value.startFrame
      && r.engine.value.endFrame == scene.value.endFrame
      && r.engine.value.writes == []
      && r.engine.value.(playing := false) == Open(scene.value)
    ensures scene.Some? && BuildPanel(VectorToArray(scene.value.controlCentre), scene.value.schema).Failure? ==>
      && r.panel == Empty
      && r.logged == s.logged + 1
      && r.timeline == s.timeline
      && r.surface == s.surface
      && !Playing(r)
      && r.scrubbing == s.scrubbing
      && r.renders == s.renders
    ensures scene.Some? && BuildPanel(VectorToArray(scene.value.controlCentre), scene.value.schema).Success? ==>
      && r.panel == BuildPanel(VectorToArray(scene.value.controlCentre), scene.value.schema).value
      && r.logged == s.logged
      && r.timeline == Timeline(scene.value.startFrame, scene.value.endFrame, scene.value.startFrame)
      && r.surface == s.surface + (if s.attached then 1 else 0)
      && Playing(r) == s.autoplay
      && r.scrubbing
      && r.renders == s.renders + (if s.attached then 1 else 0)
    ensures s.engine.Some? ==> r.buttonText == (if Playing(r) then PauseLabel else PlayLabel)
  {
    var s1 := if s.engine.Some? then Stop(s) else s;
    match scene
    case None => s1.(logged := s1.logged + 1)
    case Some(sc) => StartScene(s1, sc)
  }

  /**
   The part of `loadScene()` after a scene file opened, on a player whose
   previous engine (if any) is already stopped: install the engine, build the
   controls, then the slider, the surface and autoplay.
   */
  function StartScene(s: Player, sc: Scene): (r: Player)
    ensures r.attached == s.attached && r.autoplay == s.autoplay
    ensures r.engine.Some? && r.engine.value.(playing := false) == Open(sc)
    ensures Playing(r) ==> r.buttonText == PauseLabel
    ensures !Playing(r) ==> r.buttonText == s.buttonText
    ensures BuildPanel(VectorToArray(sc.controlCentre), sc.schema).Failure? ==>
      && r.panel == Empty
      && r.logged == s.logged + 1
      && r.timeline == s.timeline
      && r.surface == s.surface
      && !Playing(r)
      && r.scrubbing == s.scrubbing
      && r.renders == s.renders
    ensures BuildPanel(VectorToArray(sc.controlCentre), sc.schema).Success? ==>
      && r.panel == BuildPanel(VectorToArray(sc.controlCentre), sc.schema).value
      && r.logged == s.logged
      && r.timeline == Timeline(sc.startFrame, sc.endFrame, sc.startFrame)
      && r.surface == s.surface + (if s.attached then 1 else 0)
      && Playing(r) == s.autoplay
      && r.scrubbing
      && r.renders == s.renders + (if s.attached then 1 else 0)
  {
    var loaded := LoadControlCentreAttributes(s.(engine := Some(Open(sc))), sc.controlCentre);
    if loaded.error.Some? then loaded.player.(logged := loaded.player.logged + 1)
    else
      var s2 := Resize(SetTimelineAttributes(loaded.player));
      if s2.autoplay then Play(s2) else s2
  }

  /** Everything that can happen to the player from outside. */
  datatype Event =
    | Load(scene: Option<Scene>)
    | PlayClick
    | RestartClick
    | PrevClick
    | NextClick
    | WindowResize
    | SliderInput(frame: int)
    | ControlInput(index: int, value: string)
    | AnimationFrame(token: nat, status: TickStatus)

  /** One event; a handler that throws before changing anything leaves the player as it was. */
  function Apply(s: Player, e: Event): (r: Player)
    ensures s.engine.None? && !e.Load? && !e.AnimationFrame? ==> r == s
    ensures !e.Load? ==> (r.engine.Some? <==> s.engine.Some?)
    ensures !e.Load? && s.engine.Some? ==>
      && r.engine.value.startFrame == s.engine.value.startFrame
      && r.engine.value.endFrame == s.engine.value.endFrame
      && r.engine.value.schema == s.engine.value.schema
    ensures !e.Load? ==>
      r.panel == s.panel && r.logged == s.logged && r.attached == s.attached && r.autoplay == s.autoplay
  {
    match e
    case Load(scene) => LoadScene(s, scene)
    case PlayClick => TogglePlayback(s)
    case RestartClick => (match Restart(s) case Success(r) => r case Failure(_) => s)
    case PrevClick => (match Prev(s) case Success(r) => r case Failure(_) => s)
    case NextClick => (match Next(s) case Success(r) => r case Failure(_) => s)
    case WindowResize => Resize(s)
    case SliderInput(frame) => Scrub(s, frame)
    case ControlInput(index, value) => ColourInput(s, index, value)
    case AnimationFrame(token, status) => Fire(s, token, status)
  }

  /** A sequence of events, oldest first. */
  function Run(s: Player, events: seq<Event>): Player
    decreases |events|
  {
    if |events| == 0 then s else Run(Apply(s, events[0]), events[1..])
  }

  /**
   The scheduling invariant: every pending callback was issued before
   `nextToken`; while the engine plays exactly the stored callback is
   pending, otherwise none is.
   */
  predicate TickLoopSound(s: Player) {
    && (forall t :: t in s.pending ==> t < s.nextToken)
    && (Playing(s) ==> s.frameId.Some? && s.pending == {s.frameId.value})
    && (!Playing(s) ==> s.pending == {})
  }

  /** The play button names what a click will do: `Pause` while playing, `Play` otherwise. */
  predicate ButtonMatches(s: Player) {
    s.buttonText == if Playing(s) then PauseLabel else PlayLabel
  }

  /** Every event keeps the scheduling invariant. */
  lemma ApplyKeepsTickLoopSound(s: Player, e: Event)
    requires TickLoopSound(s)
    ensures TickLoopSound(Apply(s, e))
  {
    match e
    case Load(scene) => LoadKeepsTickLoopSound(s, scene);
    case PlayClick =>
    case RestartClick =>
    case PrevClick =>
    case NextClick =>
    case WindowResize =>
    case SliderInput(frame) =>
    case ControlInput(index, value) =>
    case AnimationFrame(token, status) =>
  }

  /** Loading a scene cancels the old tick loop before starting any new one. */
  lemma LoadKeepsTickLoopSound(s: Player, scene: Option<Scene>)
    requires TickLoopSound(s)
    ensures TickLoopSound(LoadScene(s, scene))
  {
  }

  /** Every event keeps the play button's text in step with the engine. */
  lemma ApplyKeepsButtonMatches(s: Player, e: Event)
    requires ButtonMatches(s)
    ensures ButtonMatches(Apply(s, e))
  {
  }

  /** Any history of events keeps the scheduling invariant. */
  lemma {:induction false} RunKeepsTickLoopSound(s: Player, events: seq<Event>)
    requires TickLoopSound(s)
    ensures TickLoopSound(Run(s, events))
    decreases |events|
  {
    if |events| > 0 {
      ApplyKeepsTickLoopSound(s, events[0]);
      RunKeepsTickLoopSound(Apply(s, events[0]), events[1..]);
    }
  }

  /**
   With the constructor exactly as written, whatever happened since: at most
   one tick loop is alive, and none while paused.
   */
  lemma ReachableAsWritten(autoplay: Option<bool>, attached: bool, events: seq<Event>)
    ensures TickLoopSound(Run(InitialAsWritten(autoplay, attached), events))
    ensures |Run(InitialAsWritten(autoplay, attached), events).pending| <= 1
  {
    RunKeepsTickLoopSound(InitialAsWritten(autoplay, attached), events);
  }

  /** From the constructor, any history of events keeps both invariants. */
  lemma {:induction false} RunKeepsInvariants(s: Player, events: seq<Event>)
    requires TickLoopSound(s) && ButtonMatches(s)
    ensures TickLoopSound(Run(s, events)) && ButtonMatches(Run(s, events))
    decreases |events|
  {
    if |events| > 0 {
      ApplyKeepsTickLoopSound(s, events[0]);
      ApplyKeepsButtonMatches(s, events[0]);
      RunKeepsInvariants(Apply(s, events[0]), events[1..]);
    }
  }

  /**
   Whatever happened since construction: at most one tick loop is alive,
   none while paused, and the button text matches the playing state.
   */
  lemma {:induction false} Reachable(autoplay: Option<bool>, attached: bool, events: seq<Event>)
    ensures |Run(Initial(autoplay, attached), events).pending| <= 1
    ensures !Playing(Run(Initial(autoplay, attached), events)) ==> Run(Initial(autoplay, attached), events).pending == {}
    ensures ButtonMatches(Run(Initial(autoplay, attached), events))
  {
    RunKeepsInvariants(Initial(autoplay, attached), events);
  }

  /** After `stop()` no tick runs again: every animation frame leaves the player unchanged. */
  lemma StopCancelsTicks(s: Player, token: nat, status: TickStatus)
    requires TickLoopSound(s) && s.engine.Some?
    ensures Stop(s).pending == {}
    ensures Fire(Stop(s), token, status) == Stop(s)
  {
  }

  /** While playing, running the pending tick keeps playing and keeps exactly one tick pending. */
  lemma TickKeepsLoopAlive(s: Player, status: TickStatus)
    requires TickLoopSound(s) && Playing(s)
    ensures Playing(Fire(s, s.frameId.value, status))
    ensures |Fire(s, s.frameId.value, status).pending| == 1
    ensures Fire(s, s.frameId.value, status).engine.value.ticks == s.engine.value.ticks + 1
  {
  }

  /** `prev()` then `next()` returns to the starting frame after two renders. */
  lemma PrevThenNext(s: Player)
    requires s.engine.Some?
    ensures Next(Prev(s).value).value.engine.value.frame == s.engine.value.frame
    ensures Next(Prev(s).value).value.renders == s.renders + 2
  {
  }

  /** `prev()` at the first frame moves outside the scene's frame range: there is no clamping. */
  lemma PrevLeavesRange(s: Player)
    requires s.engine.Some? && s.engine.value.frame == s.engine.value.startFrame
    ensures Prev(s).value.engine.value.frame < s.engine.value.startFrame
  {
  }

  /** Toggling twice restores the playing state. */
  lemma ToggleTwice(s: Player)
    requires s.engine.Some?
    ensures TogglePlayback(TogglePlayback(s)).engine.value.playing == s.engine.value.playing
  {
  }

  /**
   As written, a player built with autoplay off shows `Pause` on its button
   after loading a scene, although the scene is paused and a click plays it.
   */
  lemma AsWrittenButtonMismatch(attached: bool)
    ensures
      var r := LoadScene(InitialAsWritten(Some(false), attached), Some(Scene(0, 10, NoSize, map[])));
      r.engine.Some? && !Playing(r) && r.buttonText == PauseLabel && !ButtonMatches(r)
  {
  }
}

=== FILE: server.dfy ===
/**
 The development static server: its path routing for the engine's WASM
 files, the cross-origin isolation headers added to every response, and
 the search for a free port.
 */
module Server {
  import opened Text

  /** The three engine files served from `wasm-lib/` wherever they are requested. */
  datatype EngineFile = Script | Binary | Data

  function Name(f: EngineFile): string {
    match f
    case Script => "CavalryWasm.js"
    case Binary => "CavalryWasm.wasm"
    case Data => "CavalryWasm.data"
  }

  /** The path ending that requests `f`: a slash, then its name. */
  function Suffix(f: EngineFile): string {
    "/" + Name(f)
  }

  /** Where `f` is served from, relative to the working directory. */
  function Target(f: EngineFile): string {
    "wasm-lib/" + Name(f)
  }

  /** The request path asks for the engine file `f`. */
  predicate Requests(path: string, f: EngineFile) {
    EndsWith(path, Suffix(f))
  }

  /** The three engine file names end in different letters, so a path requests at most one of them. */
  lemma RequestsOne(path: string, f: EngineFile, g: EngineFile)
    requires Requests(path, f) && Requests(path, g)
    ensures f == g
  {
    EndsWithLast(path, Suffix(f));
    EndsWithLast(path, Suffix(g));
  }

  /**
   `Handler.translate_path`: a path ending in `/` plus one of the engine
   file names maps to that name under `wasm-lib/`; any other path goes to
   the base handler's translation `fallback` untouched.
   */
  function TranslatePath(path: string, fallback: string -> string): (r: string)
    ensures forall f :: Requests(path, f) ==> r == Target(f)
    ensures (forall f :: !Requests(path, f)) ==> r == fallback(path)
  {
    if EndsWith(path, Suffix(Script)) then
      assert forall f :: Requests(path, f) ==> f == Script by {
        forall f | Requests(path, f) ensures f == Script { RequestsOne(path, f, Script); }
      }
      assert Requests(path, Script);
      Target(Script)
    else if EndsWith(path, Suffix(Binary)) then
      assert forall f :: Requests(path, f) ==> f == Binary by {
        forall f | Requests(path, f) ensures f == Binary { RequestsOne(path, f, Binary); }
      }
      assert Requests(path, Binary);
      Target(Binary)
    else if EndsWith(path, Suffix(Data)) then
      assert Requests(path, Data);
      Target(Data)
    else
      fallback(path)
  }

  /** Any directory prefix in front of `/<engine file>` is ignored. */
  lemma RoutesFromAnyDirectory(dir: string, f: EngineFile, fallback: string -> string)
    ensures TranslatePath(dir + Suffix(f), fallback) == Target(f)
  {
  }

  /** A name glued to a longer last segment is not an engine file. */
  lemma GluedNameNotRouted(fallback: string -> string)
    ensures TranslatePath("/xCavalryWasm.js", fallback) == fallback("/xCavalryWasm.js")
  {
    var path := "/xCavalryWasm.js";
    assert !Requests(path, Script) by {
      assert path[|path| - |Suffix(Script)|..][0] == 'x';
    }
    assert !Requests(path, Binary) by {
      assert path[|path| - 1] == 's';
    }
    assert !Requests(path, Data) by {
      assert path[|path| - 1] == 's';
    }
  }

  /** One HTTP header line. */
  datatype Header = Header(name: string, value: string)

  const EmbedderPolicy := Header("Cross-Origin-Embedder-Policy", "require-corp")
  const OpenerPolicy := Header("Cross-Origin-Opener-Policy", "same-origin")

  /** A header list that makes the page cross-origin isolated. */
  predicate CrossOriginIsolated(headers: seq<Header>) {
    EmbedderPolicy in headers && OpenerPolicy in headers
  }

  /**
   `Handler.end_headers`: the two isolation headers are appended, embedder
   policy first, to whatever the response buffered, and the lot is flushed.
   */
  function EndHeaders(buffered: seq<Header>): (sent: seq<Header>)
    ensures |sent| == |buffered| + 2
    ensures sent[..|buffered|] == buffered
    ensures sent[|buffered|] == EmbedderPolicy && sent[|buffered| + 1] == OpenerPolicy
  {
    buffered + [EmbedderPolicy, OpenerPolicy]
  }

  /** Every response the handler flushes is cross-origin isolated. */
  lemma EveryResponseIsolated(buffered: seq<Header>)
    ensures CrossOriginIsolated(EndHeaders(buffered))
  {
  }

  /** What trying to bind a test server to one port gives. */
  datatype BindOutcome = Bound | AddressInUse | OtherError(code: int)

  /** The three ways `find_available_port` ends. */
  datatype PortSearch =
    | Found(port: int)
    | Raised(code: int)
    | Exhausted(first: int, last: int)

  const DefaultStartPort := 8000
  const DefaultAttempts := 10

  /** Every port in `[from, to)` reported "address in use". */
  ghost predicate AllInUse(bind: int -> BindOutcome, from: int, to: int) {
    forall p :: from <= p < to ==> bind(p) == AddressInUse
  }

  /**
   `find_available_port`: tries `start, start + 1, …, start + attempts - 1`
   in order; the first port that binds is returned, "address in use" moves
   on, any other error is raised at once, and running out of ports exits
   naming the range.
   */
  method FindAvailablePort(start: int, attempts: int, bind: int -> BindOutcome) returns (r: PortSearch)
    ensures r.Found? ==>
      start <= r.port < start + attempts && bind(r.port) == Bound && AllInUse(bind, start, r.port)
    ensures r.Raised? ==>
      exists p :: start <= p < start + attempts && bind(p) == OtherError(r.code) && AllInUse(bind, start, p)
    ensures r.Exhausted? <==> AllInUse(bind, start, start + attempts)
    ensures r.Exhausted? ==> r.first == start && r.last == start + attempts - 1
  {
    var port := start;
    while port < start + attempts
      invariant start <= port || attempts <= 0
      invariant port <= start + attempts || attempts <= 0
      invariant attempts <= 0 ==> port == start
      invariant AllInUse(bind, start, port)
      decreases start + attempts - port
    {
      match bind(port)
      case Bound =>
        return Found(port);
      case OtherError(code) =>
        return Raised(code);
      case AddressInUse =>
        port := port + 1;
    }
    return Exhausted(start, start + attempts - 1);
  }

  /** The script's own call, `find_available_port()`: ports 8000 to 8009. */
  method FindDefaultPort(bind: int -> BindOutcome) returns (r: PortSearch)
    ensures r.Found? ==>
      8000 <= r.port < 8010 && bind(r.port) == Bound && AllInUse(bind, 8000, r.port)
    ensures r.Raised? ==>
      exists p :: 8000 <= p < 8010 && bind(p) == OtherError(r.code) && AllInUse(bind, 8000, p)
    ensures r.Exhausted? <==> AllInUse(bind, 8000, 8010)
    ensures r.Exhausted? ==> r == Exhausted(8000, 8009)
  {
    r := FindAvailablePort(DefaultStartPort, DefaultAttempts, bind);
  }
}

=== FILE: text.dfy ===
/**
 String helpers with the semantics of the JavaScript and Python built-ins the
 player and the server rely on: `String.prototype.split` on a one-character
 separator, `Array.prototype.join`, `toLowerCase`, `includes` and
 Python's `str.endswith`.
 */
module Text {

  /** `s.split(sep)`: the maximal separator-free pieces, in order; never empty. */
  function Split(s: string, sep: char): (parts: seq<string>)
    ensures |parts| >= 1
    ensures forall i :: 0 <= i < |parts| ==> sep !in parts[i]
    decreases |s|
  {
    if |s| == 0 then [""]
    else
      var rest := Split(s[1..], sep);
      if s[0] == sep then [""] + rest
      else [[s[0]] + rest[0]] + rest[1..]
  }

  /** `parts.join(sep)`; the empty array joins to the empty string. */
  function Join(parts: seq<string>, sep: char): (r: string)
    ensures |parts| > 0 ==> parts[0] <= r
    ensures |parts| > 1 ==> |r| > |parts[0]| && r[|parts[0]|] == sep
    decreases |parts|
  {
    if |parts| == 0 then ""
    else if |parts| == 1 then parts[0]
    else parts[0] + [sep] + Join(parts[1..], sep)
  }

  /** Joining the pieces of a split with the same separator gives the string back. */
  lemma {:induction false} JoinSplit(s: string, sep: char)
    ensures Join(Split(s, sep), sep) == s
    decreases |s|
  {
    if |s| == 0 {
    } else {
      var rest := Split(s[1..], sep);
      JoinSplit(s[1..], sep);
      if s[0] == sep {
        assert ([""] + rest)[1..] == rest;
        assert Join([""] + rest, sep) == [sep] + Join(rest, sep);
        assert s == [s[0]] + s[1..];
      } else if |rest| == 1 {
        assert s == [s[0]] + s[1..];
      } else {
        var parts := [[s[0]] + rest[0]] + rest[1..];
        assert parts[1..] == rest[1..];
        assert Join(rest, sep) == rest[0] + [sep] + Join(rest[1..], sep);
        assert s == [s[0]] + s[1..];
      }
    }
  }

  /** A separator-free string splits into itself alone. */
  lemma {:induction false} SplitPlain(p: string, sep: char)
    requires sep !in p
    ensures Split(p, sep) == [p]
    decreases |p|
  {
    if |p| > 0 {
      SplitPlain(p[1..], sep);
      assert [p[0]] + p[1..] == p;
    }
  }

  /** Splitting stops at the first separator: the text before it is the first piece. */
  lemma {:induction false} SplitAtFirst(p: string, sep: char, t: string)
    requires sep !in p
    ensures Split(p + [sep] + t, sep) == [p] + Split(t, sep)
    decreases |p|
  {
    if |p| == 0 {
      assert p + [sep] + t == [sep] + t;
      assert ([sep] + t)[1..] == t;
    } else {
      var s := p + [sep] + t;
      assert s[0] == p[0];
      assert s[1..] == p[1..] + [sep] + t;
      SplitAtFirst(p[1..], sep, t);
      assert [p[0]] + p[1..] == p;
    }
  }

  /** Splitting the join of separator-free pieces gives the pieces back. */
  lemma {:induction false} SplitJoin(parts: seq<string>, sep: char)
    requires |parts| >= 1
    requires forall i :: 0 <= i < |parts| ==> sep !in parts[i]
    ensures Split(Join(parts, sep), sep) == parts
    decreases |parts|
  {
    if |parts| == 1 {
      SplitPlain(parts[0], sep);
    } else {
      SplitJoin(parts[1..], sep);
      SplitAtFirst(parts[0], sep, Join(parts[1..], sep));
      assert [parts[0]] + parts[1..] == parts;
    }
  }

  /** The ASCII case mapping of `toLowerCase`. */
  function LowerChar(c: char): char {
    if 'A' <= c <= 'Z' then (c as int + ('a' as int - 'A' as int)) as char else c
  }

  /** `s.toLowerCase()`, character by character. */
  function Lower(s: string): (r: string)
    ensures |r| == |s|
    ensures forall i :: 0 <= i < |s| ==> r[i] == LowerChar(s[i])
    decreases |s|
  {
    if |s| == 0 then "" else [LowerChar(s[0])] + Lower(s[1..])
  }

  /** `sub` occurs in `s` starting at index `i`. */
  predicate OccursAt(s: string, sub: string, i: int) {
    0 <= i && i + |sub| <= |s| && s[i..i + |sub|] == sub
  }

  /** `sub` occurs somewhere in `s`. */
  ghost predicate Occurs(s: string, sub: string) {
    exists i :: OccursAt(s, sub, i)
  }

  /** `s.includes(sub)`: a left-to-right scan for an occurrence of `sub`. */
  function Contains(s: string, sub: string): (b: bool)
    ensures b <==> Occurs(s, sub)
    decreases |s|
  {
    if |sub| > |s| then
      assert forall i :: !OccursAt(s, sub, i);
      false
    else if s[..|sub|] == sub then
      assert OccursAt(s, sub, 0);
      true
    else
      var b := Contains(s[1..], sub);
      assert forall i :: 0 <= i ==> (OccursAt(s[1..], sub, i) <==> OccursAt(s, sub, i + 1)) by {
        forall i | 0 <= i
          ensures OccursAt(s[1..], sub, i) <==> OccursAt(s, sub, i + 1)
        {
          if i + |sub| <= |s[1..]| {
            assert s[1..][i..i + |sub|] == s[i + 1..i + 1 + |sub|];
          }
        }
      }
      assert (exists i :: OccursAt(s, sub, i)) ==> exists i :: OccursAt(s[1..], sub, i) by {
        if exists i :: OccursAt(s, sub, i) {
          var i :| OccursAt(s, sub, i);
          assert i != 0;
          assert OccursAt(s[1..], sub, i - 1);
        }
      }
      b
  }

  /** Python's `s.endswith(suffix)`. */
  predicate EndsWith(s: string, suffix: string) {
    |suffix| <= |s| && s[|s| - |suffix|..] == suffix
  }

  /** A string ends with the last character of each of its non-empty suffixes. */
  lemma EndsWithLast(s: string, suffix: string)
    requires EndsWith(s, suffix) && |suffix| > 0
    ensures s[|s| - 1] == suffix[|suffix| - 1]
  {
  }

  /** A string ends with `suffix` exactly when it is some prefix followed by `suffix`. */
  lemma EndsWithConcat(s: string, suffix: string)
    ensures EndsWith(s, suffix) <==> exists p :: p + suffix == s
  {
    if EndsWith(s, suffix) {
      assert s[..|s| - |suffix|] + suffix == s;
    }
  }
}

=== FILE: vectors.dfy ===
/**
 Conversion of an engine-side vector (an object with `size()` and `get(i)`)
 into a plain array, as done by the player's `vectorToArray` helper.
 */
module Vectors {

  /** What the engine hands back: something without a callable `size`, or a sized vector. */
  datatype Vector<T> = NoSize | Sized(size: nat, get: nat -> T)

  /** The first `n` elements `get(0), …, get(n - 1)`, built front to back. */
  function Take<T>(n: nat, get: nat -> T): (xs: seq<T>)
    ensures |xs| == n
    ensures forall i :: 0 <= i < n ==> xs[i] == get(i)
    decreases n
  {
    if n == 0 then [] else Take(n - 1, get) + [get(n - 1)]
  }

  /** `vectorToArray`: empty when `size` is not a function, otherwise `size()` elements read by `get`. */
  function VectorToArray<T>(v: Vector<T>): (xs: seq<T>)
    ensures v.NoSize? ==> xs == []
    ensures v.Sized? ==> |xs| == v.size && forall i :: 0 <= i < |xs| ==> xs[i] == v.get(i)
  {
    match v
    case NoSize => []
    case Sized(n, get) => Take(n, get)
  }

  /** A vector that serves the elements of `xs` converts back to exactly `xs`. */
  lemma ArrayRoundTrip<T>(xs: seq<T>, get: nat -> T)
    requires forall i :: 0 <= i < |xs| ==> get(i) == xs[i]
    ensures VectorToArray(Sized(|xs|, get)) == xs
  {
  }
}
